=== FILE: README.md ===
# GA4 historical backfill — Dafny model

This project models the core of `Extrator_GA4/src/Carga_historica_inicial.py`.
That script backfills a SQL Server warehouse from Google Analytics 4 (GA4). For
every day of a fixed date range, and for every report in a fixed registry, it
does three things:

1. It asks GA4 for the day's report (`buscar_dados_ga4`).
2. It turns each response row into a table row (`processar_e_salvar`). The
   dimension strings are copied verbatim. Each metric string is coerced to an
   integer, a double, or the fallback integer 0.
3. It appends the rows to the report's destination table and reports the
   number of rows it wrote, or "Vazio" (empty).

The model is functional. It is split into one module per part of the script:

- `Registry` (`registry.dfy`): the `CONFIG_RELATORIOS` registry as an ordered
  sequence of descriptors, with its shape invariants.
- `Coercion` (`coercion.dfy`): metric coercion over an abstract parse outcome
  (`NotNumber`, or a parsed double that is finite, infinite or NaN).
- `Loader` (`loader.dfy`): row assembly, framing under the SQL column labels,
  conversion of the `Data_Log` column, and the append to the warehouse. The
  warehouse is modelled as a log of batches.
- `Fetch` (`fetch.dfy`): the fetch, including its rule that any API error
  becomes `None`.
- `Calendar` (`calendar.dfy`): Python's `date.toordinal`, so that dates are day
  numbers and `date + timedelta(days=i)` is `day + i`.
- `Orchestrator` (`orchestrator.dfy`): the day loop and table loop of
  `__main__`, both as a reference fold (`RunPairs` over `Schedule`) and as
  nested loops (`Run`, `RunDay`) proved equal to it.
- `Arithmetic` and `Outcomes`: Euclidean-division facts, and the
  `Option`/`Result` types.

Abstractions, all passed in as parameters:

- `api: (day, descriptor) -> Answered(response) | ApiFailed`. This stands for
  the GA4 client, the request and the network.
- `parse: string -> ParseOutcome`. This stands for Python's `float()`.
- `toDate: Cell -> Option<int>`. This stands for
  `pd.to_datetime(..., format='%Y%m%d')`: it gives the day number of the
  timestamp, which the loaded row then holds as a `DateCell`. `None` means
  pandas raises.

## Model

| member | source | states |
|---|---|---|
| `Registry.RegistryWellFormed` | Extrator_GA4/src/Carga_historica_inicial.py:25-47 | The registry has four entries and distinct table names. In every entry the SQL column count is the dimension count plus the metric count, `date` is the first dimension, `Data_Log` is the first column, and the column labels are distinct. |
| `Registry.IndexOf` | Extrator_GA4/src/Carga_historica_inicial.py:107 | How a frame finds a column by label: the result is the first position holding the label, or -1 exactly when the label is absent. |
| `Registry.DateColumnFirst` | Extrator_GA4/src/Carga_historica_inicial.py:104-107 | In a well-formed entry, `df['Data_Log']` addresses position 0. That is where the `date` dimension value lands. |
| `Coercion.CoerceMetric` | Extrator_GA4/src/Carga_historica_inicial.py:87-99 | Coercing a metric always yields an integer or double cell. It never rejects the row. |
| `Coercion.CoercionClassification` | Extrator_GA4/src/Carga_historica_inicial.py:87-99 | The three-way classification, with both directions. An unparseable string gives integer 0. The result is an integer exactly when parsing failed or the parsed value is whole. It is a double exactly when the parsed value is not whole, which includes infinities and NaN. |
| `Coercion.CoercionKeepsValue` | Extrator_GA4/src/Carga_historica_inicial.py:90-96 | For a parsed metric, the stored cell denotes the parsed number. Turning `5.0` into `5` loses nothing. |
| `Coercion.CoercionExamples` | Extrator_GA4/src/Carga_historica_inicial.py:89-96 | `5.0` gives 5, `7e-06` stays a double, unparseable input gives 0, `12` gives 12, `10.5` stays a double, and infinity stays a double. |
| `Loader.DimensionCells` | Extrator_GA4/src/Carga_historica_inicial.py:83-84 | One text cell per dimension value, verbatim and in order. |
| `Loader.MetricCells` | Extrator_GA4/src/Carga_historica_inicial.py:87-99 | One coerced cell per metric value, in order. No metric is dropped. |
| `Loader.AssembleRow` | Extrator_GA4/src/Carga_historica_inicial.py:80-101 | An assembled row has length #dimension values + #metric values. It holds the dimension strings verbatim, followed by the coerced metrics, in order. |
| `Loader.AssembleRows` | Extrator_GA4/src/Carga_historica_inicial.py:79-101 | Exactly one assembled row per response row, in response order. |
| `Loader.MaxWidth` | Extrator_GA4/src/Carga_historica_inicial.py:104 | The frame width is the widest row's width: every row fits in it, and some row attains it. |
| `Loader.Frame` | Extrator_GA4/src/Carga_historica_inicial.py:104 | `pd.DataFrame(data, columns=...)` succeeds exactly when the widest row is as wide as the labels. It then keeps one row per input row, as wide as the labels. Position j holds the input row's cell j, or an empty cell past the row's end. Otherwise it fails with the expected and found widths. |
| `Loader.ConvertColumn` | Extrator_GA4/src/Carga_historica_inicial.py:107 | The date conversion fails exactly when some cell of the column does not convert. Otherwise each row is unchanged except that its date cell becomes a `DateCell` holding the converted day. |
| `Loader.FramedDatesConvert` | Extrator_GA4/src/Carga_historica_inicial.py:107 | On a framed response, `pd.to_datetime(df['Data_Log'])` succeeds exactly when every row's padded `Data_Log` cell converts. |
| `Loader.BuildFrame` | Extrator_GA4/src/Carga_historica_inicial.py:79-107 | A non-empty response frames and converts exactly when it is loadable: the widest assembled row is as wide as the labels, `Data_Log` is a label, and every padded date cell converts. Each failure names its cause, in the order the script meets them. A width mismatch is reported exactly when the widest row differs from the labels, whatever the labels and dates hold, and gives the widest row's width. `MissingDateColumn` means `Data_Log` is absent, and `BadDate` means some date cell does not convert. On success, row i is response row i assembled, padded to the labels, and with its date cell converted. |
| `Loader.ProcessAndSave` | Extrator_GA4/src/Carga_historica_inicial.py:72-112 | An absent or empty response returns 0 and writes nothing. A non-empty response loads exactly when it is loadable (`Loader.Loadable`), whatever its row shapes. Otherwise it fails with the named cause, in the order the script meets them: a width mismatch exactly when the widest row differs from the labels (with the widest row's width), else a missing `Data_Log`, else a date cell that does not convert. A success returns the number of response rows and appends exactly one batch of that many rows to the named table under the given columns. Batch row i is response row i assembled and padded to the labels, with the `Data_Log` cell converted (`Loader.LoadedFrom`). So no row is dropped, duplicated or reordered. |
| `Loader.ConvertedFrameLoadedFrom` | Extrator_GA4/src/Carga_historica_inicial.py:104-107 | After framing and the date conversion, frame row i is the loaded form of assembled row i: padded to the labels, and changed only in the `Data_Log` cell. |
| `Loader.ConformingLoad` | Extrator_GA4/src/Carga_historica_inicial.py:72-112 | For a well-formed entry, a non-empty response whose rows have the requested shape and valid dates never fails. It returns the row count and appends one batch. Batch row i is response row i: date converted, other dimensions verbatim, metrics coerced. No row is dropped, duplicated or reordered. |
| `Loader.LoadIgnoresSink` | Extrator_GA4/src/Carga_historica_inicial.py:110 | The outcome, the error raised, the count and the appended rows do not depend on what the table already holds. |
| `Loader.LoadTwiceDuplicates` | Extrator_GA4/src/Carga_historica_inicial.py:110 | The append is not idempotent. Loading the same non-empty response twice leaves two identical batches. |
| `Fetch.FetchReport` | Extrator_GA4/src/Carga_historica_inicial.py:50-69 | The fetch returns `None` exactly when the API call raises. Otherwise it returns the API's response. |
| `Fetch.RowsFetched` | Extrator_GA4/src/Carga_historica_inicial.py:65-76 | When the API answered, this is the response's row count. It is 0 exactly when the fetch returns `None` or a response without rows. |
| `Fetch.FailedFetchLooksEmpty` | Extrator_GA4/src/Carga_historica_inicial.py:65-77 | A failed fetch loads as 0 with the warehouse unchanged. The result is identical to loading a response with no rows. |
| `Calendar.DaysInMonth` | Extrator_GA4/src/Carga_historica_inicial.py:130 | Every month has 28 to 31 days. |
| `Calendar.NextDate` | Extrator_GA4/src/Carga_historica_inicial.py:130 | The next calendar date of a valid date is a valid date. |
| `Calendar.YearLength` | Extrator_GA4/src/Carga_historica_inicial.py:123-124 | Day numbers advance by 366 over a leap year and by 365 over any other year. |
| `Calendar.OrdinalOfNextDate` | Extrator_GA4/src/Carga_historica_inicial.py:130 | Day numbers are consecutive across month ends, year ends and leap days. So adding `timedelta(days=1)` is adding 1 to the day number. |
| `Orchestrator.DayCount` | Extrator_GA4/src/Carga_historica_inicial.py:123-129 | The loop runs zero times exactly when the end date is before the start date. Otherwise its last day is the end date. |
| `Orchestrator.DayPairs` | Extrator_GA4/src/Carga_historica_inicial.py:136 | Within a day, every registry entry is visited once, in insertion order. |
| `Orchestrator.ScheduleLength` | Extrator_GA4/src/Carga_historica_inicial.py:123-136 | The loop processes (end − start + 1) × \|registry\| pairs. |
| `Orchestrator.ScheduleAt` | Extrator_GA4/src/Carga_historica_inicial.py:129-136 | Pair k is day `start + k / n` with entry `k % n`, where n is the registry size. |
| `Orchestrator.ScheduleShape` | Extrator_GA4/src/Carga_historica_inicial.py:123-143 | The whole enumeration. Every day of the inclusive range is visited, in ascending order one day at a time, and each day visits every entry once, in order. |
| `Orchestrator.ScheduleAscending` | Extrator_GA4/src/Carga_historica_inicial.py:129-130 | Days never decrease along the schedule, and they stay within `[start, end]`. |
| `Orchestrator.FailedRunStops` | Extrator_GA4/src/Carga_historica_inicial.py:143 | After an uncaught load error, nothing more is processed. |
| `Orchestrator.RunFollowsPairs` | Extrator_GA4/src/Carga_historica_inicial.py:129-148 | Visit k is pair k's day and table. A run without error records one visit per pair. A run with an error records a strict prefix. |
| `Orchestrator.LoadPair` | Extrator_GA4/src/Carga_historica_inicial.py:140-143 | The script's fetch-and-load for a pair. A failed API call loads as 0 with the warehouse unchanged and never raises. A successful load returns the number of rows the API answered with. |
| `Orchestrator.StepRecordsFetchedRows` | Extrator_GA4/src/Carga_historica_inicial.py:139-148 | One pair of the loop. A load error ends the run with visits and warehouse as they were. Otherwise the pair is recorded with the API's row count, and it is reported as "Vazio" (`ReportedEmpty`) exactly when nothing was written. |
| `Orchestrator.LoadPairAppendsOnce` | Extrator_GA4/src/Carga_historica_inicial.py:140-143 | Each fetch-and-load either writes nothing (count 0) or appends exactly one batch. |
| `Orchestrator.RunAppendsOncePerLoadedVisit` | Extrator_GA4/src/Carga_historica_inicial.py:140-148 | The warehouse only grows by appends. It receives exactly one batch per visit reported as loaded ("Ok"), and none for "Vazio" visits. |
| `Orchestrator.FailedFetchSameAsEmptyDay` | Extrator_GA4/src/Carga_historica_inicial.py:140-148 | Within the loop, a failed API call and a day without rows produce the same step. Both are recorded with count 0 and reported as "Vazio", and the warehouse is unchanged. |
| `Orchestrator.RunRecordsFetchedRows` | Extrator_GA4/src/Carga_historica_inicial.py:129-148 | Every visit of a run records, as `qtd`, the number of rows the API answered with for its pair: the response's row count, or 0 when the call failed. |
| `Orchestrator.RunPairsAppend` | Extrator_GA4/src/Carga_historica_inicial.py:129-136 | Processing two runs of pairs back to back is processing the first, then the second from where it left off. |
| `Orchestrator.RunNextDay` | Extrator_GA4/src/Carga_historica_inicial.py:129-136 | Processing the days from some day onward is that day's tables, then the later days. |
| `Orchestrator.RunDay` | Extrator_GA4/src/Carga_historica_inicial.py:136-151 | The inner loop equals the reference fold over one day's pairs. |
| `Orchestrator.Run` | Extrator_GA4/src/Carga_historica_inicial.py:123-154 | The nested loops equal the reference fold over the whole schedule. |
| `Orchestrator.RunVisitsSchedule` | Extrator_GA4/src/Carga_historica_inicial.py:123-143 | A run without a load error records exactly days × \|registry\| visits, and visit k is day `start + k / n` and table `k % n`. A run with an error records a prefix of that. |
| `Orchestrator.RunCountsSchedule` | Extrator_GA4/src/Carga_historica_inicial.py:123-148 | Visit k of a run records the number of rows the API answered with for day `start + k / n` and entry `k % n`. |
| `Orchestrator.ConfiguredRunCounts` | Extrator_GA4/src/Carga_historica_inicial.py:11-12 | Over the configured range and registry, visit k records the API's row count for day `DATA_INICIO + k / 4` and entry `k % 4`. |
| `Orchestrator.ConfiguredRange` | Extrator_GA4/src/Carga_historica_inicial.py:11-12 | 2025-02-01 to 2025-12-31 inclusive is 334 days. That is 1336 (day, table) pairs. |
| `Orchestrator.Backfill` | Extrator_GA4/src/Carga_historica_inicial.py:115-156 | The script's main loop with its configured range and registry. Without a load error it records 1336 visits. Visit k is day `DATA_INICIO + k / 4` and table `k % 4`, and it records the number of rows the API answered for that pair, or 0 when the call failed. |

## Left out

- The GA4 client, `RunReportRequest` construction, the property id and the network call (lines 55-66). They are the `api` parameter, a function from (day, entry) to a response or an error. The API is therefore assumed to answer the same (day, entry) the same way.
- The `'%Y-%m-%d'` string formatting of the day (line 131). The API receives the day number.
- Real float parsing and `float.is_integer` on IEEE doubles. `parse` is a parameter. A double is finite (a real), an infinity or NaN, and "whole" means finite with no fractional part.
- `pd.to_datetime`'s parsing rules. `toDate` is a parameter, and a `None` result stands for pandas raising. The model does not say which strings it accepts.
- `Loader.Frame` models only the shape of `pd.DataFrame(data, columns=...)` for a list of lists. Shorter rows are padded with empty cells up to the widest row, and construction fails when the widest row differs from the number of labels. It does not model pandas' per-column type inference. pandas stores a column holding integers and doubles, or a numeric column holding an empty pad, as floats, so a whole metric coerced to `5` reaches `to_sql` as `5.0` in such a column. The batch rows stated by `Loader.Frame`, `Loader.ProcessAndSave` and `Loader.ConformingLoad` hold the cells as assembled, before that inference. `to_datetime` is likewise applied to an empty pad through the abstract `toDate`.
- With duplicate labels, `df['Data_Log']` would select several columns; the model uses the first. The registry's labels are distinct, so this never arises there.
- `df.to_sql` (line 110). The warehouse is an append-only log that never fails. SQL type mismatches, connectivity errors and the engine set-up (lines 119-121) are not modelled.
- `time.sleep`, `print` and the credentials set-up through `os.environ` (lines 20-22, 116, 126, 133, 137, 146-156). These are timing and I/O. The printed outcome is kept as the visit's count, and "Vazio" is `ReportedEmpty`.
- Pagination. The script makes a single `run_report` call with no offset or limit (lines 58-66), so there is no page loop to model.
- `Extrator_GA4/src/Carga_historica_old.py`, `Extrator_GA4/src/Extrator_old.py` and `Extrator_GA4/src/Carga_produtos.py` are not part of this model. They are an older hard-coded copy of the same loop, a single-call extractor, and a table copy between two servers.
- `Loader.ConformingLoad` assumes that GA4 returns rows shaped like the request: one value per requested dimension and per requested metric. Rows of other shapes are covered by `Loader.ProcessAndSave`. A row shorter than the widest one is padded with empty cells. A frame whose widest row differs from the labels fails with `ColumnCountMismatch`. A row whose dimension and metric counts differ from the request but add up to the right width loads position by position. So its metric cells can land in dimension columns.

=== FILE: arithmetic.dfy ===
/** Facts about Euclidean division used by the calendar and the day loop. */
module Arithmetic {

  /** Euclidean division is determined by any quotient/remainder pair. */
  lemma DivModUnique(a: int, n: int, q: int, r: int)
    requires n > 0 && 0 <= r < n && a == q * n + r
    ensures a / n == q && a % n == r
  {
    var q', r' := a / n, a % n;
    assert a == q' * n + r';
    assert (q - q') * n == r' - r;
    if q - q' >= 1 {
      assert false;
    } else if q - q' <= -1 {
      assert false;
    }
  }

  /** Removing one divisor from the dividend lowers the quotient by one and keeps the remainder. */
  lemma DivModStep(k: int, n: int)
    requires n > 0 && k >= n
    ensures k / n == (k - n) / n + 1 && k % n == (k - n) % n
  {
    var q, r := (k - n) / n, (k - n) % n;
    assert k - n == q * n + r;
    assert k == (q + 1) * n + r;
    DivModUnique(k, n, q + 1, r);
  }

  /** The quotient of the predecessor drops by one exactly at multiples of the divisor. */
  lemma DivPredecessor(y: int, n: int)
    requires n > 0
    ensures (y - 1) / n == if y % n == 0 then y / n - 1 else y / n
  {
    var q, r := y / n, y % n;
    assert y == q * n + r;
    if r == 0 {
      assert y - 1 == (q - 1) * n + (n - 1);
      DivModUnique(y - 1, n, q - 1, n - 1);
    } else {
      DivModUnique(y - 1, n, q, r - 1);
    }
  }

  /** A multiple of `m * n` is a multiple of `n`. */
  lemma MultipleOfMultiple(y: int, m: int, n: int)
    requires m > 0 && n > 0 && y % (m * n) == 0
    ensures y % n == 0
  {
    var t := y / (m * n);
    assert y == t * (m * n);
    assert y == (t * m) * n + 0;
    DivModUnique(y, n, t * m, 0);
  }
}

=== FILE: calendar.dfy ===
/**
 Calendar dates as day numbers, computed the way Python's `date.toordinal`
 does (proleptic Gregorian, 0001-01-01 is day 1). The loader's day loop
 works on these numbers: `date + timedelta(days=i)` is `day + i`, and the
 difference of two dates is the difference of their numbers.
 */
module Calendar {

  import Arithmetic

  predicate IsLeap(y: int) {
    y % 4 == 0 && (y % 100 != 0 || y % 400 == 0)
  }

  /** The number of days in month `m` of year `y`. */
  function DaysInMonth(y: int, m: int): (n: int)
    requires 1 <= m <= 12
    ensures 28 <= n <= 31
  {
    if m == 2 then (if IsLeap(y) then 29 else 28)
    else if m == 4 || m == 6 || m == 9 || m == 11 then 30
    else 31
  }

  /** A real calendar date within Python's `date` range. */
  predicate ValidDate(y: int, m: int, d: int) {
    1 <= y <= 9999 && 1 <= m <= 12 && 1 <= d <= DaysInMonth(y, m)
  }

  function DaysBeforeYear(y: int): int {
    var p := y - 1;
    p * 365 + p / 4 - p / 100 + p / 400
  }

  /** Days in the months of year `y` before month `m`. */
  function DaysBeforeMonth(y: int, m: int): int
    requires 1 <= m <= 12
  {
    [0, 0, 31, 59, 90, 120, 151, 181, 212, 243, 273, 304, 334][m] + (if m > 2 && IsLeap(y) then 1 else 0)
  }

  /** The day number of a date. */
  function Ordinal(y: int, m: int, d: int): int
    requires ValidDate(y, m, d)
  {
    DaysBeforeYear(y) + DaysBeforeMonth(y, m) + d
  }

  /** The calendar date following a date. */
  function NextDate(y: int, m: int, d: int): (r: (int, int, int))
    requires ValidDate(y, m, d)
    requires (y, m, d) != (9999, 12, 31)
    ensures ValidDate(r.0, r.1, r.2)
  {
    if d < DaysInMonth(y, m) then (y, m, d + 1)
    else if m < 12 then (y, m + 1, 1)
    else (y + 1, 1, 1)
  }

  /** A year has 366 days when it is a leap year and 365 otherwise. */
  lemma YearLength(y: int)
    requires 1 <= y
    ensures DaysBeforeYear(y + 1) - DaysBeforeYear(y) == if IsLeap(y) then 366 else 365
  {
    Arithmetic.DivPredecessor(y, 4);
    Arithmetic.DivPredecessor(y, 100);
    Arithmetic.DivPredecessor(y, 400);
    if y % 400 == 0 {
      Arithmetic.MultipleOfMultiple(y, 4, 100);
    }
    if y % 100 == 0 {
      Arithmetic.MultipleOfMultiple(y, 25, 4);
    }
  }

  /**
   Day numbers are consecutive: the next calendar date has the next day
   number, across month and year ends and leap days alike.
   */
  lemma OrdinalOfNextDate(y: int, m: int, d: int)
    requires ValidDate(y, m, d)
    requires (y, m, d) != (9999, 12, 31)
    ensures var n := NextDate(y, m, d); Ordinal(n.0, n.1, n.2) == Ordinal(y, m, d) + 1
  {
    if d == DaysInMonth(y, m) && m == 12 {
      YearLength(y);
    }
  }
}

=== FILE: coercion.dfy ===
/**
 Metric coercion: every metric arrives from GA4 as a string; it is parsed as a
 double, whole values are stored as integers, other values as doubles, and a
 string that does not parse becomes the integer 0 (the row is never rejected).

 The double parse itself is abstract: the loader is given a `parse` function
 whose outcome is either `NotNumber` (Python's `float()` raising ValueError)
 or the parsed double.
 */
module Coercion {

  import opened Outcomes

  /** A double as far as the loader can tell: a finite value or a non-finite one. */
  datatype Double = Finite(value: real) | PosInfinity | NegInfinity | NaN

  /** What parsing a metric string as a double yields. */
  datatype ParseOutcome = NotNumber | Parsed(number: Double)

  /**
   One cell of an assembled row or of a loaded batch: a dimension string, an
   integer or double metric, a converted timestamp (a day number), or the
   empty cell a ragged row is padded with.
   */
  datatype Cell = Text(text: string) | IntCell(whole: int) | FloatCell(double: Double) | DateCell(day: int) | Missing

  /** Whether a double holds a whole number (Python's `float.is_integer`). */
  predicate IsWhole(d: Double) {
    d.Finite? && d.value == d.value.Floor as real
  }

  /** The number a metric cell denotes, if it is a metric cell. */
  function NumberOf(c: Cell): Option<Double> {
    match c
    case IntCell(i) => Some(Finite(i as real))
    case FloatCell(f) => Some(f)
    case _ => None
  }

  /**
   Coerces one parsed metric. The result is always a metric cell, never an
   error: the three-way classification and its value preservation are stated
   by `CoercionClassification` and `CoercionKeepsValue`.
   */
  function CoerceMetric(p: ParseOutcome): (c: Cell)
    ensures c.IntCell? || c.FloatCell?
  {
    match p
    case NotNumber => IntCell(0)
    case Parsed(d) => if IsWhole(d) then IntCell(d.value.Floor) else FloatCell(d)
  }

  /**
   The three-way classification: an unparseable string gives integer 0; a
   parsed whole value gives an integer cell; any other parsed value (a
   fraction, an infinity, NaN) is kept as a double cell.
   */
  lemma CoercionClassification(p: ParseOutcome)
    ensures p.NotNumber? ==> CoerceMetric(p) == IntCell(0)
    ensures CoerceMetric(p).IntCell? <==> p.NotNumber? || (p.Parsed? && IsWhole(p.number))
    ensures CoerceMetric(p).FloatCell? <==> p.Parsed? && !IsWhole(p.number)
  {
  }

  /**
   A parsed metric keeps its numeric value: storing a whole double as an
   integer loses nothing.
   */
  lemma CoercionKeepsValue(p: ParseOutcome)
    requires p.Parsed?
    ensures NumberOf(CoerceMetric(p)) == Some(p.number)
  {
  }

  /** The cell stored for a metric, for each example the loader is written against. */
  lemma CoercionExamples()
    ensures CoerceMetric(Parsed(Finite(5.0))) == IntCell(5)
    ensures CoerceMetric(Parsed(Finite(0.000007))) == FloatCell(Finite(0.000007))
    ensures CoerceMetric(NotNumber) == IntCell(0)
    ensures CoerceMetric(Parsed(Finite(12.0))) == IntCell(12)
    ensures CoerceMetric(Parsed(Finite(10.5))) == FloatCell(Finite(10.5))
    ensures CoerceMetric(Parsed(PosInfinity)) == FloatCell(PosInfinity)
  {
  }
}

=== FILE: fetch.dfy ===
/**
 The report fetch (`buscar_dados_ga4`): one GA4 `run_report` call for the
 single day and the entry's dimensions and metrics. The client, the request
 object and the network are abstracted into an `Api` function from the day
 and the entry to the call's outcome. Any exception the call raises is
 swallowed and turned into `None`.
 */
module Fetch {

  import opened Outcomes
  import opened Registry
  import opened Coercion
  import opened Loader

  /** What one `run_report` call does: answer with a response, or raise. */
  datatype ApiOutcome = Answered(response: Response) | ApiFailed(message: string)

  /** The reporting API as seen by the loader, for one property. */
  type Api = (int, ReportDescriptor) -> ApiOutcome

  /** The fetch: the response on success, `None` on any API error. */
  function FetchReport(api: Api, day: int, d: ReportDescriptor): (r: Option<Response>)
    ensures r.None? <==> api(day, d).ApiFailed?
    ensures r.Some? ==> r.value == api(day, d).response
  {
    match api(day, d)
    case Answered(resp) => Some(resp)
    case ApiFailed(_) => None
  }

  /** The number of rows the API answered with for a day and entry; none when the call failed. */
  function RowsFetched(api: Api, day: int, d: ReportDescriptor): (n: nat)
    ensures n == 0 <==> FetchReport(api, day, d).None? || FetchReport(api, day, d).value.rows == []
    ensures api(day, d).Answered? ==> n == |api(day, d).response.rows|
  {
    match api(day, d)
    case Answered(resp) => |resp.rows|
    case ApiFailed(_) => 0
  }

  /**
   A failed fetch loads exactly like a day with no rows: 0 is returned and
   the warehouse is untouched, so the two cannot be told apart afterwards.
   */
  lemma FailedFetchLooksEmpty(api: Api, day: int, d: ReportDescriptor,
                              parse: string -> ParseOutcome, toDate: Cell -> Option<int>, sink: Sink)
    requires api(day, d).ApiFailed?
    ensures ProcessAndSave(FetchReport(api, day, d), d.table, d.columns, parse, toDate, sink)
         == Success(Loaded(0, sink))
    ensures ProcessAndSave(FetchReport(api, day, d), d.table, d.columns, parse, toDate, sink)
         == ProcessAndSave(Some(Response([])), d.table, d.columns, parse, toDate, sink)
  {
  }
}

=== FILE: loader.dfy ===
/**
 Row assembly and load (`processar_e_salvar`): each GA4 row becomes its
 dimension strings verbatim followed by its coerced metrics; the rows are
 framed under the table's SQL columns, the date column is converted, and the
 batch is appended to the destination table once. The function returns the
 number of rows written, or 0 without writing when there is nothing to load.

 pandas and SQLAlchemy are abstracted: the frame is a sequence of rows, the
 date conversion is a parameter `toDate` giving a cell's day number (None
 when pandas would raise), the converted cell being a `DateCell`, and
 the warehouse is an append-only log of batches.
 */
module Loader {

  import opened Outcomes
  import opened Coercion
  import opened Registry

  /** One GA4 response row: its dimension values and its metric values, as strings. */
  datatype ApiRow = ApiRow(dimensionValues: seq<string>, metricValues: seq<string>)

  /** A GA4 report response; only its rows matter to the loader. */
  datatype Response = Response(rows: seq<ApiRow>)

  type Row = seq<Cell>

  /** One append to the warehouse: the destination table, its column labels, and the rows. */
  datatype Batch = Batch(table: string, columns: seq<string>, rows: seq<Row>)

  /** The warehouse as seen by the loader: every batch appended so far, oldest first. */
  type Sink = seq<Batch>

  /** The errors the load step raises (and does not catch). */
  datatype LoadError =
    | ColumnCountMismatch(expected: nat, found: nat)  // the frame's width differs from the column labels
    | MissingDateColumn                                 // the labels do not include the date column
    | BadDate                                           // some date cell does not convert

  /** A successful load: the count returned, and the warehouse after it. */
  datatype Loaded = Loaded(count: nat, sink: Sink)

  /** The dimension values of a row, copied verbatim as text cells. */
  function DimensionCells(vs: seq<string>): (cs: seq<Cell>)
    ensures |cs| == |vs|
    ensures forall i :: 0 <= i < |vs| ==> cs[i] == Text(vs[i])
  {
    if vs == [] then [] else [Text(vs[0])] + DimensionCells(vs[1..])
  }

  /** The metric values of a row, each coerced on its own. */
  function MetricCells(vs: seq<string>, parse: string -> ParseOutcome): (cs: seq<Cell>)
    ensures |cs| == |vs|
    ensures forall j :: 0 <= j < |vs| ==> cs[j] == CoerceMetric(parse(vs[j]))
  {
    if vs == [] then [] else [CoerceMetric(parse(vs[0]))] + MetricCells(vs[1..], parse)
  }

  /**
   One assembled row: the dimension strings in order, then one coerced cell
   per metric in order, and nothing else.
   */
  function AssembleRow(r: ApiRow, parse: string -> ParseOutcome): (out: Row)
    ensures |out| == |r.dimensionValues| + |r.metricValues|
    ensures forall i :: 0 <= i < |r.dimensionValues| ==> out[i] == Text(r.dimensionValues[i])
    ensures forall j :: 0 <= j < |r.metricValues| ==>
              out[|r.dimensionValues| + j] == CoerceMetric(parse(r.metricValues[j]))
  {
    DimensionCells(r.dimensionValues) + MetricCells(r.metricValues, parse)
  }

  /** The assembled rows of a response: one per input row, in the same order. */
  function AssembleRows(rows: seq<ApiRow>, parse: string -> ParseOutcome): (out: seq<Row>)
    ensures |out| == |rows|
    ensures forall i :: 0 <= i < |rows| ==> out[i] == AssembleRow(rows[i], parse)
  {
    if rows == [] then [] else [AssembleRow(rows[0], parse)] + AssembleRows(rows[1..], parse)
  }

  /** The width of the widest row (0 for no rows). */
  function MaxWidth(rows: seq<Row>): (w: nat)
    ensures forall i :: 0 <= i < |rows| ==> |rows[i]| <= w
    ensures rows != [] ==> exists i :: 0 <= i < |rows| && |rows[i]| == w
  {
    if rows == [] then 0
    else
      var rest := MaxWidth(rows[1..]);
      assert forall i :: 1 <= i < |rows| ==> rows[i] == rows[1..][i - 1];
      if |rows[0]| >= rest then |rows[0]| else rest
  }

  /** A row extended with empty cells up to width `w`. */
  function Pad(row: Row, w: nat): (out: Row)
    requires |row| <= w
    ensures |out| == w
    ensures out[..|row|] == row
    ensures forall k :: |row| <= k < w ==> out[k] == Missing
  {
    row + seq(w - |row|, _ => Missing)
  }

  /** Every row padded to width `w`. */
  function PadAll(rows: seq<Row>, w: nat): (out: seq<Row>)
    requires forall i :: 0 <= i < |rows| ==> |rows[i]| <= w
    ensures |out| == |rows|
    ensures forall i :: 0 <= i < |rows| ==> out[i] == Pad(rows[i], w)
  {
    if rows == [] then [] else [Pad(rows[0], w)] + PadAll(rows[1..], w)
  }

  /** The cell a row holds at position `j` once padded: its own cell, or an empty cell past its end. */
  function PaddedCell(row: Row, j: int): Cell {
    if 0 <= j < |row| then row[j] else Missing
  }

  /**
   Framing rows under column labels, the shape rule of
   `pd.DataFrame(data, columns=...)` for a list of lists: shorter rows are
   padded with empty cells up to the widest row, and the widest row must be
   exactly as wide as the labels.
   */
  function Frame(data: seq<Row>, columns: seq<string>): (r: Result<seq<Row>, LoadError>)
    ensures r.Success? <==> data == [] || MaxWidth(data) == |columns|
    ensures r.Failure? ==> r.error == ColumnCountMismatch(|columns|, MaxWidth(data))
    ensures r.Success? ==> |r.value| == |data|
    ensures r.Success? ==> forall i :: 0 <= i < |data| ==>
              && |data[i]| <= |r.value[i]| == |columns|
              && forall j :: 0 <= j < |columns| ==> r.value[i][j] == PaddedCell(data[i], j)
  {
    if data == [] then Success([])
    else if MaxWidth(data) != |columns| then Failure(ColumnCountMismatch(|columns|, MaxWidth(data)))
    else Success(PadAll(data, |columns|))
  }

  /**
   Converts cell `k` of every row with `toDate` into a date cell holding the
   day `toDate` gives; fails if any cell does not convert (pandas raises for
   the whole column).
   */
  function ConvertColumn(rows: seq<Row>, k: nat, toDate: Cell -> Option<int>): (r: Result<seq<Row>, LoadError>)
    requires forall i :: 0 <= i < |rows| ==> k < |rows[i]|
    ensures r.Failure? <==> exists i :: 0 <= i < |rows| && toDate(rows[i][k]).None?
    ensures r.Failure? ==> r.error == BadDate
    ensures r.Success? ==> |r.value| == |rows|
    ensures r.Success? ==> forall i :: 0 <= i < |rows| ==>
              r.value[i] == rows[i][k := DateCell(toDate(rows[i][k]).value)]
  {
    if rows == [] then Success([])
    else
      match toDate(rows[0][k])
      case None => Failure(BadDate)
      case Some(day) =>
        match ConvertColumn(rows[1..], k, toDate)
        case Failure(e) => Failure(e)
        case Success(rest) => Success([rows[0][k := DateCell(day)]] + rest)
  }

  /**
   Batch row `out` is assembled row `a` as loaded under `columns`: as wide as
   the labels, no assembled cell dropped, each position holding `a`'s cell or
   an empty pad past its end, except the date column, which holds that cell
   converted by `toDate` into a date cell.
   */
  predicate LoadedFrom(out: Row, a: Row, columns: seq<string>, toDate: Cell -> Option<int>) {
    var k := IndexOf(columns, DateColumn);
    && |a| <= |out| == |columns|
    && 0 <= k < |columns|
    && out[k].DateCell? && toDate(PaddedCell(a, k)) == Some(out[k].day)
    && forall j :: 0 <= j < |columns| && j != k ==> out[j] == PaddedCell(a, j)
  }

  /** Batch row `i` is response row `i` assembled and loaded under the batch's columns, for every row. */
  predicate BatchLoadedFrom(b: Batch, rows: seq<ApiRow>, parse: string -> ParseOutcome, toDate: Cell -> Option<int>) {
    && |b.rows| == |rows|
    && forall i :: 0 <= i < |rows| ==> LoadedFrom(b.rows[i], AssembleRow(rows[i], parse), b.columns, toDate)
  }

  /** A framed and date-converted frame holds, row by row, the loaded form of the assembled rows. */
  lemma ConvertedFrameLoadedFrom(rows: seq<ApiRow>, parse: string -> ParseOutcome, framed: seq<Row>,
                                 converted: seq<Row>, table: string, columns: seq<string>,
                                 toDate: Cell -> Option<int>)
    requires Frame(AssembleRows(rows, parse), columns) == Success(framed)
    requires 0 <= IndexOf(columns, DateColumn)
    requires ConvertColumn(framed, IndexOf(columns, DateColumn), toDate) == Success(converted)
    ensures BatchLoadedFrom(Batch(table, columns, converted), rows, parse, toDate)
  {
    var k := IndexOf(columns, DateColumn);
    var data := AssembleRows(rows, parse);
    forall i | 0 <= i < |rows| ensures LoadedFrom(converted[i], AssembleRow(rows[i], parse), columns, toDate) {
      assert data[i] == AssembleRow(rows[i], parse);
      assert converted[i] == framed[i][k := DateCell(toDate(framed[i][k]).value)];
      assert framed[i][k] == PaddedCell(data[i], k);
    }
  }

  /** Every assembled row's cell in the date column, padded to the labels, converts. */
  predicate DatesConvert(rows: seq<ApiRow>, parse: string -> ParseOutcome, columns: seq<string>,
                         toDate: Cell -> Option<int>) {
    forall i :: 0 <= i < |rows| ==>
      toDate(PaddedCell(AssembleRow(rows[i], parse), IndexOf(columns, DateColumn))).Some?
  }

  /**
   What a non-empty response needs to load: the widest assembled row is as
   wide as the labels, the labels include the date column, and every date cell
   converts.
   */
  predicate Loadable(rows: seq<ApiRow>, parse: string -> ParseOutcome, columns: seq<string>,
                     toDate: Cell -> Option<int>) {
    && MaxWidth(AssembleRows(rows, parse)) == |columns|
    && DateColumn in columns
    && DatesConvert(rows, parse, columns, toDate)
  }

  /** On a framed response, the date conversion succeeds exactly when every padded date cell converts. */
  lemma FramedDatesConvert(rows: seq<ApiRow>, parse: string -> ParseOutcome, framed: seq<Row>,
                           columns: seq<string>, toDate: Cell -> Option<int>)
    requires Frame(AssembleRows(rows, parse), columns) == Success(framed)
    requires 0 <= IndexOf(columns, DateColumn)
    ensures ConvertColumn(framed, IndexOf(columns, DateColumn), toDate).Success?
        <==> DatesConvert(rows, parse, columns, toDate)
  {
    var k := IndexOf(columns, DateColumn);
    var data := AssembleRows(rows, parse);
    forall i | 0 <= i < |rows| ensures framed[i][k] == PaddedCell(AssembleRow(rows[i], parse), k) {
      assert data[i] == AssembleRow(rows[i], parse);
    }
  }

  /**
   The frame a non-empty response becomes before it is written: the rows
   assembled, framed under `columns`, and the date column converted. It fails
   exactly when the response is not loadable, with the cause the frame
   construction, the column lookup or the date conversion raises; on success
   row `i` is response row `i` assembled, padded to the labels, with its date
   cell converted.
   */
  function BuildFrame(rows: seq<ApiRow>, columns: seq<string>,
                      parse: string -> ParseOutcome, toDate: Cell -> Option<int>): (r: Result<seq<Row>, LoadError>)
    requires rows != []
    ensures r.Success? <==> Loadable(rows, parse, columns, toDate)
    ensures r.Failure? ==> (r.error.ColumnCountMismatch? <==> MaxWidth(AssembleRows(rows, parse)) != |columns|)
    ensures r.Failure? && r.error.ColumnCountMismatch? ==>
              && r.error.expected == |columns| != r.error.found
              && (forall i :: 0 <= i < |rows| ==>
                    |rows[i].dimensionValues| + |rows[i].metricValues| <= r.error.found)
              && exists i :: 0 <= i < |rows| && |rows[i].dimensionValues| + |rows[i].metricValues| == r.error.found
    ensures r.Failure? && r.error.MissingDateColumn? ==> DateColumn !in columns
    ensures r.Failure? && r.error.BadDate? ==> DateColumn in columns && !DatesConvert(rows, parse, columns, toDate)
    ensures r.Success? ==> BatchLoadedFrom(Batch([], columns, r.value), rows, parse, toDate)
  {
    var data := AssembleRows(rows, parse);
    assert forall i :: 0 <= i < |data| ==>
      |data[i]| == |rows[i].dimensionValues| + |rows[i].metricValues|;
    match Frame(data, columns)
    case Failure(e) => Failure(e)
    case Success(framed) =>
      var k := IndexOf(columns, DateColumn);
      if k < 0 then Failure(MissingDateColumn)
      else
        FramedDatesConvert(rows, parse, framed, columns, toDate);
        match ConvertColumn(framed, k, toDate)
        case Failure(e) => Failure(e)
        case Success(converted) =>
          ConvertedFrameLoadedFrom(rows, parse, framed, converted, [], columns, toDate);
          Success(converted)
  }

  /**
   The load step. Nothing to load (no response, or a response with no rows)
   returns 0 and leaves the warehouse untouched. Otherwise the load succeeds
   exactly when the response is loadable; the count returned is then the
   number of response rows and exactly one batch of that many rows is appended
   for `table` under `columns`, its row `i` being response row `i` assembled,
   padded to the labels, and with its date cell converted. Each error names
   its cause.
   */
  function ProcessAndSave(response: Option<Response>, table: string, columns: seq<string>,
                          parse: string -> ParseOutcome, toDate: Cell -> Option<int>,
                          sink: Sink): (r: Result<Loaded, LoadError>)
    ensures response.None? || response.value.rows == [] ==> r == Success(Loaded(0, sink))
    ensures r.Failure? ==> response.Some? && response.value.rows != []
    ensures response.Some? && response.value.rows != [] ==>
              (r.Success? <==> Loadable(response.value.rows, parse, columns, toDate))
    ensures r.Failure? ==>
              (r.error.ColumnCountMismatch? <==> MaxWidth(AssembleRows(response.value.rows, parse)) != |columns|)
    ensures r.Failure? && r.error.ColumnCountMismatch? ==>
              && r.error.expected == |columns| != r.error.found
              && (forall i :: 0 <= i < |response.value.rows| ==>
                    |response.value.rows[i].dimensionValues| + |response.value.rows[i].metricValues| <= r.error.found)
              && exists i :: 0 <= i < |response.value.rows| &&
                    |response.value.rows[i].dimensionValues| + |response.value.rows[i].metricValues| == r.error.found
    ensures r.Failure? && r.error.MissingDateColumn? ==> DateColumn !in columns
    ensures r.Failure? && r.error.BadDate? ==>
              DateColumn in columns && !DatesConvert(response.value.rows, parse, columns, toDate)
    ensures r.Success? && response.Some? ==> r.value.count == |response.value.rows|
    ensures r.Success? && r.value.count == 0 ==> r.value.sink == sink
    ensures r.Success? && r.value.count > 0 ==>
              && |r.value.sink| == |sink| + 1
              && r.value.sink[..|sink|] == sink
              && r.value.sink[|sink|].table == table
              && r.value.sink[|sink|].columns == columns
              && |r.value.sink[|sink|].rows| == r.value.count
    ensures r.Success? && r.value.count > 0 ==>
              BatchLoadedFrom(r.value.sink[|sink|], response.value.rows, parse, toDate)
  {
    if response.None? || response.value.rows == [] then Success(Loaded(0, sink))
    else
      match BuildFrame(response.value.rows, columns, parse, toDate)
      case Failure(e) => Failure(e)
      case Success(converted) => Success(Loaded(|converted|, sink + [Batch(table, columns, converted)]))
  }

  /** A response row has the shape the report asked for. */
  predicate Conforms(row: ApiRow, d: ReportDescriptor) {
    |row.dimensionValues| == |d.dimensions| && |row.metricValues| == |d.metrics|
  }

  /** A batch row is the loaded form of a conforming row: date converted, other dimensions verbatim, metrics coerced. */
  predicate LoadedRowMatches(out: Row, row: ApiRow, parse: string -> ParseOutcome, toDate: Cell -> Option<int>)
    requires |row.dimensionValues| > 0
  {
    && |out| == |row.dimensionValues| + |row.metricValues|
    && out[0].DateCell? && toDate(Text(row.dimensionValues[0])) == Some(out[0].day)
    && (forall i :: 0 < i < |row.dimensionValues| ==> out[i] == Text(row.dimensionValues[i]))
    && (forall j :: 0 <= j < |row.metricValues| ==>
          out[|row.dimensionValues| + j] == CoerceMetric(parse(row.metricValues[j])))
  }

  /** Rows that are already exactly as wide as the labels frame to themselves. */
  lemma FrameOfFullRows(data: seq<Row>, columns: seq<string>)
    requires data != []
    requires forall i :: 0 <= i < |data| ==> |data[i]| == |columns|
    ensures Frame(data, columns) == Success(data)
  {
    var w := MaxWidth(data);
    var k :| 0 <= k < |data| && |data[k]| == w;
    var r := Frame(data, columns);
    assert r.Success?;
    forall i | 0 <= i < |data| ensures r.value[i] == data[i] {
      forall j | 0 <= j < |columns| ensures r.value[i][j] == data[i][j] {
        assert r.value[i][j] == PaddedCell(data[i], j);
      }
    }
    assert r.value == data;
  }

  /** An assembled row whose date cell is converted is the loaded form of its input row. */
  lemma AssembledRowMatches(row: ApiRow, parse: string -> ParseOutcome, toDate: Cell -> Option<int>)
    requires |row.dimensionValues| > 0
    requires toDate(Text(row.dimensionValues[0])).Some?
    ensures var a := AssembleRow(row, parse);
            LoadedRowMatches(a[0 := DateCell(toDate(a[0]).value)], row, parse, toDate)
  {
  }

  /** Every row has the requested shape and a date the converter accepts. */
  predicate LoadableRows(rows: seq<ApiRow>, d: ReportDescriptor, toDate: Cell -> Option<int>)
    requires WellFormed(d)
  {
    forall i :: 0 <= i < |rows| ==>
      Conforms(rows[i], d) && toDate(Text(rows[i].dimensionValues[0])).Some?
  }

  /**
   The load of `rows` for entry `d` succeeded, returned the row count, and
   appended exactly one batch whose row `i` is the loaded form of input row `i`.
   */
  predicate LoadedAs(r: Result<Loaded, LoadError>, sink: Sink, d: ReportDescriptor, rows: seq<ApiRow>,
                     parse: string -> ParseOutcome, toDate: Cell -> Option<int>)
    requires WellFormed(d)
    requires LoadableRows(rows, d, toDate)
  {
    && r.Success?
    && r.value.count == |rows|
    && |r.value.sink| == |sink| + 1
    && r.value.sink[..|sink|] == sink
    && r.value.sink[|sink|].table == d.table
    && r.value.sink[|sink|].columns == d.columns
    && |r.value.sink[|sink|].rows| == |rows|
    && forall i :: 0 <= i < |rows| ==>
         LoadedRowMatches(r.value.sink[|sink|].rows[i], rows[i], parse, toDate)
  }

  /** The load step, once its frame and date conversion are known to succeed. */
  lemma LoadOfConvertedFrame(response: Option<Response>, table: string, columns: seq<string>,
                             parse: string -> ParseOutcome, toDate: Cell -> Option<int>,
                             sink: Sink, converted: seq<Row>)
    requires response.Some? && response.value.rows != []
    requires Frame(AssembleRows(response.value.rows, parse), columns) == Success(AssembleRows(response.value.rows, parse))
    requires IndexOf(columns, DateColumn) == 0
    requires ConvertColumn(AssembleRows(response.value.rows, parse), 0, toDate) == Success(converted)
    ensures ProcessAndSave(response, table, columns, parse, toDate, sink)
         == Success(Loaded(|converted|, sink + [Batch(table, columns, converted)]))
  {
  }

  /**
   For a well-formed registry entry and a non-empty response whose rows all
   have the requested shape and carry convertible dates, the load never fails:
   it returns the number of rows and appends one batch in which row `i` is
   exactly input row `i` — date converted, other dimensions verbatim, metrics
   coerced. No row is dropped, duplicated or reordered.
   */
  lemma {:induction false} ConformingLoad(d: ReportDescriptor, rows: seq<ApiRow>,
                                          parse: string -> ParseOutcome, toDate: Cell -> Option<int>, sink: Sink)
    requires WellFormed(d)
    requires rows != []
    requires LoadableRows(rows, d, toDate)
    ensures LoadedAs(ProcessAndSave(Some(Response(rows)), d.table, d.columns, parse, toDate, sink),
                     sink, d, rows, parse, toDate)
  {
    var data := AssembleRows(rows, parse);
    assert |d.dimensions| > 0;
    forall i | 0 <= i < |data| ensures |data[i]| == |d.columns| && |data[i]| > 0 && toDate(data[i][0]).Some? {
      assert Conforms(rows[i], d) && toDate(Text(rows[i].dimensionValues[0])).Some?;
      assert data[i][0] == Text(rows[i].dimensionValues[0]);
    }
    FrameOfFullRows(data, d.columns);
    DateColumnFirst(d);
    var conv := ConvertColumn(data, 0, toDate);
    assert conv.Success?;
    LoadOfConvertedFrame(Some(Response(rows)), d.table, d.columns, parse, toDate, sink, conv.value);
    forall i | 0 <= i < |rows|
      ensures LoadedRowMatches(conv.value[i], rows[i], parse, toDate)
    {
      assert Conforms(rows[i], d);
      AssembledRowMatches(rows[i], parse, toDate);
    }
  }

  /**
   What a load appends does not depend on what the warehouse already holds:
   the same response gives the same outcome and the same new rows on any sink.
   */
  lemma LoadIgnoresSink(response: Option<Response>, table: string, columns: seq<string>,
                        parse: string -> ParseOutcome, toDate: Cell -> Option<int>, s1: Sink, s2: Sink)
    ensures var r1 := ProcessAndSave(response, table, columns, parse, toDate, s1);
            var r2 := ProcessAndSave(response, table, columns, parse, toDate, s2);
            && r1.Success? == r2.Success?
            && (r1.Failure? ==> r2.error == r1.error)
            && (r1.Success? ==> r2.value.count == r1.value.count && r2.value.sink == s2 + r1.value.sink[|s1|..])
  {
    if response.Some? && response.value.rows != [] {
      var f := BuildFrame(response.value.rows, columns, parse, toDate);
      if f.Success? {
        var b := Batch(table, columns, f.value);
        assert ProcessAndSave(response, table, columns, parse, toDate, s1) == Success(Loaded(|f.value|, s1 + [b]));
        assert ProcessAndSave(response, table, columns, parse, toDate, s2) == Success(Loaded(|f.value|, s2 + [b]));
        assert (s1 + [b])[|s1|..] == [b];
      }
    }
  }

  /**
   Loading is append-only and not idempotent: loading the same non-empty
   response twice leaves two identical batches in the warehouse.
   */
  lemma LoadTwiceDuplicates(response: Option<Response>, table: string, columns: seq<string>,
                            parse: string -> ParseOutcome, toDate: Cell -> Option<int>, sink: Sink)
    ensures var r1 := ProcessAndSave(response, table, columns, parse, toDate, sink);
            r1.Success? && r1.value.count > 0 ==>
              var second := ProcessAndSave(response, table, columns, parse, toDate, r1.value.sink);
              && second.Success?
              && second.value.count == r1.value.count
              && |second.value.sink| == |sink| + 2
              && second.value.sink[|sink|] == second.value.sink[|sink| + 1]
  {
    var r1 := ProcessAndSave(response, table, columns, parse, toDate, sink);
    if r1.Success? && r1.value.count > 0 {
      LoadIgnoresSink(response, table, columns, parse, toDate, sink, r1.value.sink);
    }
  }
}

=== FILE: orchestrator.dfy ===
/**
 The historical backfill loop: for every day of the inclusive range
 `[start, end]`, ascending one day at a time, and for every registry entry in
 insertion order, fetch the day's report, load it, and record the count
 (reported as loaded rows when positive, as empty otherwise). A load error is
 not caught and ends the run; API errors never do, since the fetch swallows them.
 */
module Orchestrator {

  import opened Outcomes
  import opened Registry
  import opened Coercion
  import opened Loader
  import opened Fetch
  import Calendar
  import opened Arithmetic

  /** First and last day of the backfill: 2025-02-01 and 2025-12-31. */
  const DataInicio: int := Calendar.Ordinal(2025, 2, 1)
  const DataFim: int := Calendar.Ordinal(2025, 12, 31)

  /** One (day, table) pair processed, with the count the load returned. */
  datatype Visit = Visit(day: int, table: string, count: nat)

  /** The progress of a run: the pairs processed, the warehouse, and the error that ended it, if any. */
  datatype RunState = RunState(visits: seq<Visit>, sink: Sink, failure: Option<LoadError>)

  /** A visit is reported as empty ("Vazio") exactly when its count is 0. */
  predicate ReportedEmpty(v: Visit) {
    v.count == 0
  }

  /**
   The number of days the loop runs: the date difference plus one, with a
   non-positive total giving no iterations at all.
   */
  function DayCount(start: int, end: int): (n: nat)
    ensures n == 0 <==> end < start
    ensures n > 0 ==> start + n - 1 == end
  {
    if end < start then 0 else end - start + 1
  }

  /** The pairs of one day: the day with every entry, in registry order. */
  function DayPairs(day: int, reports: seq<ReportDescriptor>): (ps: seq<(int, ReportDescriptor)>)
    ensures |ps| == |reports|
    ensures forall j :: 0 <= j < |reports| ==> ps[j] == (day, reports[j])
  {
    if reports == [] then [] else [(day, reports[0])] + DayPairs(day, reports[1..])
  }

  /** All (day, entry) pairs of the range, days ascending and entries in order within a day. */
  function Schedule(start: int, end: int, reports: seq<ReportDescriptor>): seq<(int, ReportDescriptor)>
    decreases end - start
  {
    if end < start then [] else DayPairs(start, reports) + Schedule(start + 1, end, reports)
  }

  /** One pair per day and entry. */
  lemma {:induction false} ScheduleLength(start: int, end: int, reports: seq<ReportDescriptor>)
    ensures |Schedule(start, end, reports)| == DayCount(start, end) * |reports|
    decreases end - start
  {
    if end >= start {
      ScheduleLength(start + 1, end, reports);
      var c := DayCount(start + 1, end);
      assert DayCount(start, end) == c + 1;
      assert (c + 1) * |reports| == c * |reports| + |reports|;
    }
  }

  /** Pair `k` of the schedule is day `start + k / n` with entry `k % n`. */
  lemma {:induction false} ScheduleAt(start: int, end: int, reports: seq<ReportDescriptor>, k: int)
    requires |reports| > 0
    requires 0 <= k < |Schedule(start, end, reports)|
    ensures Schedule(start, end, reports)[k] == (start + k / |reports|, reports[k % |reports|])
    decreases end - start
  {
    var n := |reports|;
    var first := DayPairs(start, reports);
    var rest := Schedule(start + 1, end, reports);
    var s := Schedule(start, end, reports);
    assert s == first + rest;
    if k < n {
      assert s[k] == first[k];
      DivModUnique(k, n, 0, k);
    } else {
      assert s[k] == rest[k - n];
      ScheduleAt(start + 1, end, reports, k - n);
      DivModStep(k, n);
    }
  }

  /**
   The schedule has one pair per day and entry, and pair `k` is day
   `start + k / n` with entry `k % n` (n entries): every day of the range is
   visited once, in ascending order, and within it every entry once, in order.
   */
  lemma ScheduleShape(start: int, end: int, reports: seq<ReportDescriptor>)
    ensures |Schedule(start, end, reports)| == DayCount(start, end) * |reports|
    ensures forall k :: 0 <= k < |Schedule(start, end, reports)| ==>
              Schedule(start, end, reports)[k] == (start + k / |reports|, reports[k % |reports|])
  {
    ScheduleLength(start, end, reports);
    forall k | 0 <= k < |Schedule(start, end, reports)|
      ensures Schedule(start, end, reports)[k] == (start + k / |reports|, reports[k % |reports|])
    {
      ScheduleAt(start, end, reports, k);
    }
  }

  /**
   Days in the schedule never decrease: all pairs of a day come before any
   pair of a later day.
   */
  lemma {:induction false} ScheduleAscending(start: int, end: int, reports: seq<ReportDescriptor>, a: int, b: int)
    requires 0 <= a <= b < |Schedule(start, end, reports)|
    ensures start <= Schedule(start, end, reports)[a].0 <= Schedule(start, end, reports)[b].0 <= end
    decreases end - start
  {
    var n := |reports|;
    var s := Schedule(start, end, reports);
    assert end >= start;
    var first := DayPairs(start, reports);
    var rest := Schedule(start + 1, end, reports);
    assert s == first + rest;
    if b < n {
      assert s[a] == first[a] && s[b] == first[b];
    } else if a < n {
      assert s[a] == first[a] && s[b] == rest[b - n];
      ScheduleAscending(start + 1, end, reports, b - n, b - n);
    } else {
      assert s[a] == rest[a - n] && s[b] == rest[b - n];
      ScheduleAscending(start + 1, end, reports, a - n, b - n);
    }
  }

  /**
   The work done for one (day, entry) pair against the warehouse so far:
   fetch the day's report and load it into the entry's table.
   */
  type PairLoader = (Sink, int, ReportDescriptor) -> Result<Loaded, LoadError>

  /**
   The pair load of the script: `buscar_dados_ga4` followed by
   `processar_e_salvar`. A failed API call loads nothing and cannot fail; a
   successful load returns the number of rows the API answered with.
   */
  function LoadPair(api: Api, parse: string -> ParseOutcome, toDate: Cell -> Option<int>): (load: PairLoader)
    ensures forall sink, day, d :: api(day, d).ApiFailed? ==> load(sink, day, d) == Success(Loaded(0, sink))
    ensures CountsFetchedRows(load, api)
  {
    (sink: Sink, day: int, d: ReportDescriptor) =>
      ProcessAndSave(FetchReport(api, day, d), d.table, d.columns, parse, toDate, sink)
  }

  /** A pair loader whose successful loads return the number of rows the API answered with. */
  ghost predicate CountsFetchedRows(load: PairLoader, api: Api) {
    forall sink, day, d :: load(sink, day, d).Success? ==> load(sink, day, d).value.count == RowsFetched(api, day, d)
  }

  /**
   One pair of the loop: load, then record the count. After an error nothing
   further happens (the uncaught exception has ended the run).
   */
  function Step(st: RunState, day: int, d: ReportDescriptor, load: PairLoader): RunState
  {
    if st.failure.Some? then st
    else
      match load(st.sink, day, d)
      case Failure(e) => st.(failure := Some(e))
      case Success(l) => RunState(st.visits + [Visit(day, d.table, l.count)], l.sink, None)
  }

  /** The pairs processed in order from a state. */
  function RunPairs(st: RunState, pairs: seq<(int, ReportDescriptor)>, load: PairLoader): RunState
    decreases |pairs|
  {
    if pairs == [] then st
    else RunPairs(Step(st, pairs[0].0, pairs[0].1, load), pairs[1..], load)
  }

  /** Once a run has failed, nothing more happens. */
  lemma {:induction false} FailedRunStops(st: RunState, pairs: seq<(int, ReportDescriptor)>, load: PairLoader)
    requires st.failure.Some?
    ensures RunPairs(st, pairs, load) == st
    decreases |pairs|
  {
    if pairs != [] {
      FailedRunStops(st, pairs[1..], load);
    }
  }

  /**
   The visits of a run follow the pairs it was given: visit `k` is pair `k`'s
   day and table; a run that ends without error has one visit per pair, and
   one that ends with an error stops short of the pair that raised.
   */
  lemma {:induction false} RunFollowsPairs(st: RunState, pairs: seq<(int, ReportDescriptor)>, load: PairLoader)
    requires st.failure.None?
    ensures var out := RunPairs(st, pairs, load);
            && |st.visits| <= |out.visits| <= |st.visits| + |pairs|
            && out.visits[..|st.visits|] == st.visits
            && (out.failure.None? <==> |out.visits| == |st.visits| + |pairs|)
            && forall k :: |st.visits| <= k < |out.visits| ==>
                 out.visits[k].day == pairs[k - |st.visits|].0 && out.visits[k].table == pairs[k - |st.visits|].1.table
    decreases |pairs|
  {
    if pairs != [] {
      var next := Step(st, pairs[0].0, pairs[0].1, load);
      if next.failure.Some? {
        FailedRunStops(next, pairs[1..], load);
      } else {
        RunFollowsPairs(next, pairs[1..], load);
        var out := RunPairs(st, pairs, load);
        assert out == RunPairs(next, pairs[1..], load);
        forall k | |st.visits| <= k < |out.visits|
          ensures out.visits[k].day == pairs[k - |st.visits|].0 && out.visits[k].table == pairs[k - |st.visits|].1.table
        {
          if k == |st.visits| {
            assert out.visits[..|next.visits|] == next.visits;
            assert out.visits[k] == next.visits[k];
          } else {
            assert pairs[k - |st.visits|] == pairs[1..][k - |next.visits|];
          }
        }
        assert out.visits[..|st.visits|] == out.visits[..|next.visits|][..|st.visits|];
      }
    }
  }

  /** The number of visits that loaded rows (reported "Ok" rather than "Vazio"). */
  function LoadedCount(vs: seq<Visit>): nat {
    if vs == [] then 0
    else LoadedCount(vs[..|vs| - 1]) + (if ReportedEmpty(vs[|vs| - 1]) then 0 else 1)
  }

  /** A load result that, when successful, wrote nothing for a count of 0 and one batch otherwise. */
  predicate WritesOnce(sink: Sink, r: Result<Loaded, LoadError>) {
    r.Success? ==>
      if r.value.count == 0 then r.value.sink == sink
      else |r.value.sink| == |sink| + 1 && r.value.sink[..|sink|] == sink
  }

  /** A pair loader that only ever appends, one batch per non-empty load. */
  ghost predicate AppendsOnce(load: PairLoader) {
    forall sink, day, d :: WritesOnce(sink, load(sink, day, d))
  }

  /** The script's pair load appends one batch per non-empty load and nothing otherwise. */
  lemma LoadPairAppendsOnce(api: Api, parse: string -> ParseOutcome, toDate: Cell -> Option<int>)
    ensures AppendsOnce(LoadPair(api, parse, toDate))
  {
    forall sink, day, d ensures WritesOnce(sink, LoadPair(api, parse, toDate)(sink, day, d)) {
      var r := ProcessAndSave(FetchReport(api, day, d), d.table, d.columns, parse, toDate, sink);
      assert LoadPair(api, parse, toDate)(sink, day, d) == r;
    }
  }

  /**
   The warehouse only grows by appends, and it receives exactly one batch per
   visit that loaded rows: empty and failed fetches write nothing.
   */
  lemma {:induction false} RunAppendsOncePerLoadedVisit(st: RunState, pairs: seq<(int, ReportDescriptor)>, load: PairLoader)
    requires AppendsOnce(load)
    requires st.failure.None?
    ensures var out := RunPairs(st, pairs, load);
            && |st.sink| <= |out.sink|
            && out.sink[..|st.sink|] == st.sink
            && |out.sink| - |st.sink| == LoadedCount(out.visits) - LoadedCount(st.visits)
    decreases |pairs|
  {
    if pairs != [] {
      var next := Step(st, pairs[0].0, pairs[0].1, load);
      if next.failure.Some? {
        FailedRunStops(next, pairs[1..], load);
      } else {
        var r := load(st.sink, pairs[0].0, pairs[0].1);
        assert WritesOnce(st.sink, r);
        assert next.visits == st.visits + [Visit(pairs[0].0, pairs[0].1.table, r.value.count)];
        assert next.visits[..|next.visits| - 1] == st.visits;
        RunAppendsOncePerLoadedVisit(next, pairs[1..], load);
        var out := RunPairs(next, pairs[1..], load);
        assert out.sink[..|st.sink|] == out.sink[..|next.sink|][..|st.sink|];
      }
    }
  }

  /**
   A failed fetch and a day without rows produce the same step: the pair is
   recorded with count 0 and reported as empty, and the warehouse is unchanged.
   */
  lemma FailedFetchSameAsEmptyDay(st: RunState, day: int, d: ReportDescriptor, failing: Api, empty: Api,
                                  parse: string -> ParseOutcome, toDate: Cell -> Option<int>)
    requires st.failure.None?
    requires failing(day, d).ApiFailed?
    requires empty(day, d) == Answered(Response([]))
    ensures Step(st, day, d, LoadPair(failing, parse, toDate)) == Step(st, day, d, LoadPair(empty, parse, toDate))
    ensures var next := Step(st, day, d, LoadPair(failing, parse, toDate));
            next.failure.None? && next.sink == st.sink && ReportedEmpty(next.visits[|st.visits|])
  {
    FailedFetchLooksEmpty(failing, day, d, parse, toDate, st.sink);
  }

  /**
   One pair of the loop, for a load that counts the API's rows and appends at
   most once: a load error ends the run with visits and warehouse as they
   were; otherwise the pair is recorded with the API's row count, and it is
   reported as empty ("Vazio") exactly when nothing was written.
   */
  lemma StepRecordsFetchedRows(st: RunState, day: int, d: ReportDescriptor, load: PairLoader, api: Api)
    requires st.failure.None?
    requires CountsFetchedRows(load, api)
    requires AppendsOnce(load)
    ensures var next := Step(st, day, d, load);
            && (next.failure.Some? ==> next.visits == st.visits && next.sink == st.sink)
            && (next.failure.None? ==>
                  && next.visits == st.visits + [Visit(day, d.table, RowsFetched(api, day, d))]
                  && next.sink[..|st.sink|] == st.sink
                  && (ReportedEmpty(next.visits[|st.visits|]) <==> next.sink == st.sink))
  {
    var r := load(st.sink, day, d);
    assert WritesOnce(st.sink, r);
  }

  /**
   Every visit of a run records the number of rows the API answered with for
   its pair: the response's row count, or 0 when the call failed.
   */
  lemma {:induction false} RunRecordsFetchedRows(st: RunState, pairs: seq<(int, ReportDescriptor)>, load: PairLoader, api: Api)
    requires st.failure.None?
    requires CountsFetchedRows(load, api)
    ensures var out := RunPairs(st, pairs, load);
            && |st.visits| <= |out.visits| <= |st.visits| + |pairs|
            && forall k :: |st.visits| <= k < |out.visits| ==>
                 out.visits[k].count == RowsFetched(api, pairs[k - |st.visits|].0, pairs[k - |st.visits|].1)
    decreases |pairs|
  {
    RunFollowsPairs(st, pairs, load);
    if pairs != [] {
      var next := Step(st, pairs[0].0, pairs[0].1, load);
      if next.failure.Some? {
        FailedRunStops(next, pairs[1..], load);
      } else {
        RunRecordsFetchedRows(next, pairs[1..], load, api);
        RunFollowsPairs(next, pairs[1..], load);
        var out := RunPairs(next, pairs[1..], load);
        forall k | |st.visits| <= k < |out.visits|
          ensures out.visits[k].count == RowsFetched(api, pairs[k - |st.visits|].0, pairs[k - |st.visits|].1)
        {
          if k == |st.visits| {
            assert out.visits[..|next.visits|] == next.visits;
            assert out.visits[k] == next.visits[k];
          } else {
            assert pairs[k - |st.visits|] == pairs[1..][k - |next.visits|];
          }
        }
      }
    }
  }

  /** Processing `a + b` is processing `a` and then `b` from where `a` left off. */
  lemma {:induction false} RunPairsAppend(st: RunState, a: seq<(int, ReportDescriptor)>, b: seq<(int, ReportDescriptor)>,
                                          load: PairLoader)
    ensures RunPairs(st, a + b, load) == RunPairs(RunPairs(st, a, load), b, load)
    decreases |a|
  {
    if a != [] {
      assert (a + b)[0] == a[0];
      assert (a + b)[1..] == a[1..] + b;
      RunPairsAppend(Step(st, a[0].0, a[0].1, load), a[1..], b, load);
    } else {
      assert a + b == b;
    }
  }

  /** Processing the days from `day` is processing `day`'s pairs, then the later days. */
  lemma RunNextDay(st: RunState, day: int, end: int, reports: seq<ReportDescriptor>, load: PairLoader)
    requires day <= end
    ensures RunPairs(st, Schedule(day, end, reports), load)
         == RunPairs(RunPairs(st, DayPairs(day, reports), load), Schedule(day + 1, end, reports), load)
  {
    RunPairsAppend(st, DayPairs(day, reports), Schedule(day + 1, end, reports), load);
  }

  /**
   One day of the loop: every entry in registry order, stopping at the first
   load error.
   */
  method RunDay(st0: RunState, day: int, reports: seq<ReportDescriptor>, load: PairLoader)
    returns (st: RunState)
    requires st0.failure.None?
    ensures st == RunPairs(st0, DayPairs(day, reports), load)
  {
    ghost var pairs := DayPairs(day, reports);
    st := st0;
    var j := 0;
    while j < |reports|
      invariant 0 <= j <= |reports|
      invariant st.failure.None?
      invariant st == RunPairs(st0, pairs[..j], load)
    {
      assert pairs[..j + 1] == pairs[..j] + [(day, reports[j])];
      RunPairsAppend(st0, pairs[..j], [(day, reports[j])], load);
      st := Step(st, day, reports[j], load);
      if st.failure.Some? {
        assert pairs == pairs[..j + 1] + pairs[j + 1..];
        RunPairsAppend(st0, pairs[..j + 1], pairs[j + 1..], load);
        FailedRunStops(st, pairs[j + 1..], load);
        return;
      }
      j := j + 1;
    }
    assert pairs[..j] == pairs;
  }

  /**
   The backfill loop. Runs over `[start, end]` and over `reports` for each
   day, doing `load` for each pair against the warehouse `sink`; it stops at
   the first load error.
   */
  method Run(start: int, end: int, reports: seq<ReportDescriptor>, load: PairLoader, sink: Sink)
    returns (st: RunState)
    ensures st == RunPairs(RunState([], sink, None), Schedule(start, end, reports), load)
  {
    ghost var target := RunPairs(RunState([], sink, None), Schedule(start, end, reports), load);
    st := RunState([], sink, None);
    var total := DayCount(start, end);
    var i := 0;
    while i < total
      invariant 0 <= i <= total
      invariant st.failure.None?
      invariant RunPairs(st, Schedule(start + i, end, reports), load) == target
    {
      var day := start + i;
      RunNextDay(st, day, end, reports, load);
      st := RunDay(st, day, reports, load);
      if st.failure.Some? {
        FailedRunStops(st, Schedule(day + 1, end, reports), load);
        return;
      }
      i := i + 1;
    }
  }

  /**
   What a run visits: if no load fails, exactly `DayCount × |reports|` pairs,
   pair `k` being day `start + k / |reports|` and entry `k % |reports|`;
   if one fails, a prefix of that enumeration.
   */
  lemma RunVisitsSchedule(start: int, end: int, reports: seq<ReportDescriptor>, load: PairLoader, sink: Sink)
    ensures var out := RunPairs(RunState([], sink, None), Schedule(start, end, reports), load);
            && |out.visits| <= DayCount(start, end) * |reports|
            && (out.failure.None? <==> |out.visits| == DayCount(start, end) * |reports|)
            && forall k :: 0 <= k < |out.visits| ==>
                 out.visits[k].day == start + k / |reports| && out.visits[k].table == reports[k % |reports|].table
  {
    var s := Schedule(start, end, reports);
    var out := RunPairs(RunState([], sink, None), s, load);
    ScheduleLength(start, end, reports);
    RunFollowsPairs(RunState([], sink, None), s, load);
    forall k | 0 <= k < |out.visits|
      ensures out.visits[k].day == start + k / |reports| && out.visits[k].table == reports[k % |reports|].table
    {
      ScheduleAt(start, end, reports, k);
    }
  }

  /**
   What a run records for each visit: visit `k` carries the number of rows the
   API answered with for day `start + k / |reports|` and entry `k % |reports|`.
   */
  lemma RunCountsSchedule(start: int, end: int, reports: seq<ReportDescriptor>, load: PairLoader, api: Api, sink: Sink)
    requires CountsFetchedRows(load, api)
    ensures var out := RunPairs(RunState([], sink, None), Schedule(start, end, reports), load);
            && |out.visits| <= DayCount(start, end) * |reports|
            && forall k :: 0 <= k < |out.visits| ==>
                 out.visits[k].count == RowsFetched(api, start + k / |reports|, reports[k % |reports|])
  {
    var s := Schedule(start, end, reports);
    var out := RunPairs(RunState([], sink, None), s, load);
    ScheduleLength(start, end, reports);
    RunRecordsFetchedRows(RunState([], sink, None), s, load, api);
    forall k | 0 <= k < |out.visits|
      ensures out.visits[k].count == RowsFetched(api, start + k / |reports|, reports[k % |reports|])
    {
      ScheduleAt(start, end, reports, k);
    }
  }

  /** The configured backfill covers 334 days, that is 1336 (day, table) pairs. */
  lemma ConfiguredRange()
    ensures DayCount(DataInicio, DataFim) == 334
    ensures |Schedule(DataInicio, DataFim, Reports)| == 1336
  {
    assert DataInicio == 739283 && DataFim == 739616;
    assert |Reports| == 4;
    ScheduleLength(DataInicio, DataFim, Reports);
  }

  /** The counts a run over the configured range and registry records, for any load that counts the API's rows. */
  lemma ConfiguredRunCounts(load: PairLoader, api: Api, sink: Sink)
    requires CountsFetchedRows(load, api)
    ensures var out := RunPairs(RunState([], sink, None), Schedule(DataInicio, DataFim, Reports), load);
            forall k :: 0 <= k < |out.visits| ==>
              out.visits[k].count == RowsFetched(api, DataInicio + k / 4, Reports[k % 4])
  {
    assert |Reports| == 4;
    RunCountsSchedule(DataInicio, DataFim, Reports, load, api, sink);
  }

  /**
   The script's main loop: the configured range, the registry in order, and
   the script's fetch-and-load for every pair. A run without a load error
   records 1336 visits, pair `k` being day `DataInicio + k / 4` and table
   `k % 4`, each visit carrying the number of rows the API answered with.
   */
  method Backfill(api: Api, parse: string -> ParseOutcome, toDate: Cell -> Option<int>, sink: Sink)
    returns (st: RunState)
    ensures st == RunPairs(RunState([], sink, None), Schedule(DataInicio, DataFim, Reports), LoadPair(api, parse, toDate))
    ensures st.failure.None? ==> |st.visits| == 1336
    ensures forall k :: 0 <= k < |st.visits| ==>
              st.visits[k].day == DataInicio + k / 4 && st.visits[k].table == Reports[k % 4].table
    ensures forall k :: 0 <= k < |st.visits| ==>
              st.visits[k].count == RowsFetched(api, DataInicio + k / 4, Reports[k % 4])
  {
    st := Run(DataInicio, DataFim, Reports, LoadPair(api, parse, toDate), sink);
    ConfiguredRange();
    RunVisitsSchedule(DataInicio, DataFim, Reports, LoadPair(api, parse, toDate), sink);
    ConfiguredRunCounts(LoadPair(api, parse, toDate), api, sink);
  }
}

=== FILE: outcomes.dfy ===
/** Absent-or-present values and success-or-failure values used across the model. */
module Outcomes {

  /** A value that may be missing, as Python's `None` is used by the loader. */
  datatype Option<+T> = None | Some(value: T)

  /** The outcome of a step that either produces a value or raises an error. */
  datatype Result<+T, +E> = Success(value: T) | Failure(error: E)
}

=== FILE: registry.dfy ===
/**
 The report registry: the fixed, ordered table that tells the loader, for each
 destination table, which GA4 dimensions and metrics to request and which SQL
 columns receive them (dimensions first, then metrics).
 */
module Registry {

  /** One registry entry, keyed by its destination table name. */
  datatype ReportDescriptor = ReportDescriptor(
    table: string,
    dimensions: seq<string>,
    metrics: seq<string>,
    columns: seq<string>)

  /** The GA4 dimension every report requests first. */
  const DateDimension: string := "date"

  /** The SQL column that receives the date dimension and is converted to a timestamp. */
  const DateColumn: string := "Data_Log"

  const Trafego: ReportDescriptor := ReportDescriptor(
    "f_Trafego",
    ["date", "sessionSource", "sessionMedium", "sessionCampaignName", "deviceCategory"],
    ["sessions", "activeUsers", "newUsers", "totalRevenue"],
    ["Data_Log", "Origem", "Midia", "Campanha", "Dispositivo", "Sessoes", "Usuarios_Ativos", "Novos_Usuarios", "Receita"])

  const AcessosSessao: ReportDescriptor := ReportDescriptor(
    "f_Acessos_sessao",
    ["date", "pagePath", "pageTitle"],
    ["screenPageViews", "activeUsers", "averageSessionDuration"],
    ["Data_Log", "Pagina_Caminho", "Pagina_Titulo", "Visualizacoes", "Usuarios", "Tempo_Medio_Segundos"])

  const AcessosItem: ReportDescriptor := ReportDescriptor(
    "f_Acessos_Item",
    ["date", "itemId", "itemName", "itemBrand", "itemCategory"],
    ["itemsViewed", "itemsAddedToCart", "itemsPurchased", "itemRevenue"],
    ["Data_Log", "Item_ID", "Item_Nome", "Item_Marca", "Item_Categoria", "Vistos", "Adicionados_Carrinho", "Comprados", "Receita_Item"])

  const EventosGeral: ReportDescriptor := ReportDescriptor(
    "f_Eventos_Geral",
    ["date", "eventName", "sessionSource"],
    ["eventCount", "totalUsers"],
    ["Data_Log", "Nome_Evento", "Origem", "Quantidade_Eventos", "Total_Usuarios"])

  /** The registry, in insertion order (the order in which each day visits the tables). */
  const Reports: seq<ReportDescriptor> := [Trafego, AcessosSessao, AcessosItem, EventosGeral]

  /** No element occurs twice. */
  predicate Distinct<T(==)>(s: seq<T>) {
    forall i, j :: 0 <= i < j < |s| ==> s[i] != s[j]
  }

  /**
   The shape every entry must have for its rows to fit its columns: one SQL
   column per requested field, and the date dimension landing in the date column.
   */
  predicate WellFormed(d: ReportDescriptor) {
    && |d.columns| == |d.dimensions| + |d.metrics|
    && |d.dimensions| > 0
    && d.dimensions[0] == DateDimension
    && d.columns[0] == DateColumn
    && Distinct(d.columns)
  }

  /** The table names of a registry, in order. */
  function Tables(rs: seq<ReportDescriptor>): (names: seq<string>)
    ensures |names| == |rs|
    ensures forall i :: 0 <= i < |rs| ==> names[i] == rs[i].table
  {
    if rs == [] then [] else [rs[0].table] + Tables(rs[1..])
  }

  /** The first position of `x` in `s`, if any: how a column label is found in a frame. */
  function IndexOf<T(==)>(s: seq<T>, x: T): (r: int)
    ensures -1 <= r < |s|
    ensures r >= 0 ==> s[r] == x && forall i :: 0 <= i < r ==> s[i] != x
    ensures r < 0 ==> forall i :: 0 <= i < |s| ==> s[i] != x
  {
    if s == [] then -1
    else if s[0] == x then 0
    else
      var k := IndexOf(s[1..], x);
      if k < 0 then -1 else k + 1
  }

  /** In a well-formed entry the date column is found at position 0. */
  lemma DateColumnFirst(d: ReportDescriptor)
    requires WellFormed(d)
    ensures IndexOf(d.columns, DateColumn) == 0
  {
  }

  /**
   The registry's shape invariants: four entries, table names distinct (they
   are dictionary keys), and every entry well formed.
   */
  lemma RegistryWellFormed()
    ensures |Reports| == 4
    ensures Distinct(Tables(Reports))
    ensures forall i :: 0 <= i < |Reports| ==> WellFormed(Reports[i])
  {
    assert Tables(Reports) == ["f_Trafego", "f_Acessos_sessao", "f_Acessos_Item", "f_Eventos_Geral"];
    TrafegoWellFormed();
    AcessosSessaoWellFormed();
    AcessosItemWellFormed();
    EventosGeralWellFormed();
  }

  // Each entry's shape, one lemma per entry.
  lemma TrafegoWellFormed() ensures WellFormed(Trafego) {}
  lemma AcessosSessaoWellFormed() ensures WellFormed(AcessosSessao) {}
  lemma AcessosItemWellFormed() ensures WellFormed(AcessosItem) {}
  lemma EventosGeralWellFormed() ensures WellFormed(EventosGeral) {}
}
